=== FILE: README.md ===
# mini_game: the per-tick game logic in Dafny

A model of the integer bookkeeping of `src/main.rs`, a small arcade game. A paddle at the
bottom of an 800×600 window moves ten pixels per key press. Red balls and green balls fall from
the top. A red ball that reaches the paddle costs a life, and a green one gives a life back
while fewer than three remain. The loop stops when a red hit takes the last life.

Modules, one per piece of the program:

- `Screen`: the window and paddle constants (800, 600, 35).
- `MachineInt`: the `u8` and `u32` arithmetic the program relies on, with wrap-around written
  out. As-written members follow an optimised build, which wraps. A debug build panics at the
  same inputs instead.
- `Versions`: the two versions of the program the model carries, `AsWritten` and `Corrected`.
- `Paddle`: `move_left` and `move_right`, and the set of positions reachable from the start.
- `Pool`: `Ball` and one call of `update_balls`. This covers the spawn, the advance, and the
  order-preserving `retain` with its collision callback. The random spawn decision and column
  become an `Option<nat>` input. The fall step `(10.0 * fall_speed) as u32` becomes a `nat`
  input.
- `Lives`: the red and green collision callbacks of `update`, and their ordering.
- `Game`: the state, `update`, key dispatch, and the `run`-guarded event loop of `main`, with
  the invariant that loop keeps.

The code has two arithmetic bugs, listed under "## Findings". Every operation that touches them
takes a `Version` argument:

- `AsWritten` is the code as it stands. It uses the wrapping `u32` catch test of
  src/main.rs:103 and the wrapping `u8` decrement of src/main.rs:116.
- `Corrected` uses a catch test without the subtraction, and a decrement that stops at zero.

Every property of `Retain`, `UpdateBalls`, `ApplyHits`, `UpdateState`, `Step` and `Run` is
proved for both versions, unless its contract restricts itself to `Corrected`.
Game.UpdateVersionsAgree proves the two versions take identical ticks whenever
35 ≤ position < 2^32 − 35 (so neither `position - 35` nor `position + 35` wraps) and the red
hits do not outnumber the lives.

Three things one would expect of this game do not hold of its code. The `AsWritten` version
shows each of them:

- The paddle is not confined to [35, 765]. The guards `> 35` and `< 765` are checked before
  the step, so from 400 the paddle reaches every multiple of ten from 30 to 770.
- Lives do not always stay in [0, 3]. The unguarded `u8` decrement can stop the game with
  255 lives. The as-written invariant therefore bounds lives only while the game runs. The
  bound "at most 3 lives" after the game has stopped holds only of `Corrected`.
- `update` itself does not stop once the game is over. It has no such check, and it even
  resets `run` to true at its start. Only the loop guard stops the game.

## Model

| member | source | states |
|---|---|---|
| Paddle.MoveLeft | src/main.rs:125-129 | moves by exactly one step of 10 or not at all; it moves iff position > 35; the result stays a valid `u32`, so the subtraction never underflows |
| Paddle.MoveRight | src/main.rs:131-135 | moves by exactly one step of 10 or not at all; it moves iff position < 765; a `u32` position stays a `u32` |
| Paddle.RightUndoesLeft | src/main.rs:125-135 | a right move undoes a left move that happened |
| Paddle.LeftUndoesRight | src/main.rs:125-135 | a left move undoes a right move that happened |
| Paddle.PressKeepsReachable | src/main.rs:125-135 | both moves preserve the set of multiples of 10 in 30..770 |
| Paddle.PressesKeepReachable | src/main.rs:125-135 | any sequence of key presses preserves that set |
| Paddle.WalkLeft | src/main.rs:125-129 | n left presses subtract exactly 10·n while the guard keeps allowing it |
| Paddle.WalkRight | src/main.rs:131-135 | n right presses add exactly 10·n while the guard keeps allowing it |
| Paddle.ReachableFromStart | src/main.rs:158 | from the start position 400, the positions some key sequence reaches are exactly the multiples of 10 in 30..770 (both directions) |
| Paddle.LeftEdgeBelowHalfWidth | src/main.rs:126-127 | 37 left presses from 400 reach the left edge 30, one step past the guard and below the catch half-width 35 |
| Pool.CaughtAsWritten | src/main.rs:103 | the as-written catch test, with wrapping `u32` subtraction and addition; it agrees with the corrected test whenever 35 ≤ position < 2^32 − 35 |
| Pool.CaughtWithinHalfWidth | src/main.rs:103 | the corrected catch test holds iff the ball is below y = 565 and strictly within 35 pixels of the paddle horizontally |
| Pool.AsWrittenBlindLeftOfHalfWidth | src/main.rs:103 | with the paddle left of 35, the as-written test catches no on-screen ball |
| Pool.AsWrittenMissesAtLeftEdge | src/main.rs:103 | at position 30, the as-written test misses the ball (10, 570) under the paddle, and the corrected test catches it |
| Pool.HitVersionsAgree | src/main.rs:103 | for 35 ≤ position < 2^32 − 35, the as-written and corrected catch tests agree on every ball |
| Pool.Advanced | src/main.rs:89-100 | at most one ball is appended, at the end, at the spawn column with y = 0; then every ball, the new one included, moves down by the same step and keeps its x |
| Pool.Retain | src/main.rs:102-109 | in either version, the kept balls and the hits are each in pool order, and together they are no more than the pool |
| Pool.RetainCounts | src/main.rs:102-109 | in either version, kept balls are exactly the surviving ones (not hit by that version's test, y < 600), counted with multiplicity; callbacks fire exactly once per hit ball; balls past the bottom vanish silently |
| Pool.RetainVersionsAgree | src/main.rs:102-109 | for 35 ≤ position < 2^32 − 35, the as-written and corrected retains give the same kept balls and hits |
| Pool.RetainMembers | src/main.rs:102-109 | in either version, a ball is kept iff it was in the pool and survives, and it is a hit iff it was in the pool and passes that version's catch test |
| Pool.UpdateBalls | src/main.rs:86-110 | in either version, every remaining ball has y < 600 and fails that version's catch test; every hit passes it; kept plus hits is at most the old size plus the one spawn; on-screen columns stay on screen |
| Pool.UpdateBallsPerBall | src/main.rs:102-109 | in either version, for each advanced ball: it is a hit iff it passes that version's test, otherwise kept iff y < 600; its callback count is its multiplicity when hit and zero otherwise |
| Pool.UpdateBallsDivergeAtLeftEdge | src/main.rs:102-109 | at position 30 with step 2, the as-written call keeps the ball (10, 570), and the corrected call reports it as a hit |
| Lives.RedPassAsWritten | src/main.rs:116 | the as-written red callback over r hits leaves lives − r modulo 256; run ends iff at least `lives` decrements happen (256 from zero) |
| Lives.RedPass | src/main.rs:116 | the guarded red callback leaves max(0, lives − r); run ends iff 0 < lives ≤ r, that is, iff some decrement reaches zero |
| Lives.RedPassAgreesWhenEnoughLives | src/main.rs:116 | with r ≤ lives, the as-written and guarded red passes agree |
| Lives.RedPassAsWrittenWraps | src/main.rs:116 | with lives < r ≤ lives + 3, the as-written pass leaves 256 + lives − r lives (more than 3), and the guarded one leaves 0 |
| Lives.TwoRedHitsOnLastLife | src/main.rs:116 | one life and two red hits: the as-written result is 255 lives, the guarded result is 0 lives; run ends either way |
| Lives.GreenPass | src/main.rs:117 | g green hits map lives L ≤ 3 to min(3, L + g) and leave a count above 3 unchanged |
| Lives.ApplyHits | src/main.rs:112-120 | red before green, with run starting true, in either version: run ends iff r ≥ L (for L > 0); with r ≤ L ≤ 3, lives become min(3, L − r + g); as written, with L < r ≤ L + 3 lives wrap to 256 + L − r; corrected, with L ≤ 3, lives become min(3, max(0, L − r) + g) |
| Lives.ApplyHitsKeepsLivesInRange | src/main.rs:112-120 | from 1..3 lives, in either version: a tick ends the run iff r ≥ L, and a tick that keeps it running leaves 1..3 lives; the corrected version also leaves at most 3 when the run ends |
| Lives.ApplyHitsVersionsAgree | src/main.rs:112-120 | with r ≤ lives, the as-written and corrected bookkeeping give the same lives and run |
| Lives.GreenAfterRedRevives | src/main.rs:116-120 | in both versions, green runs after red, so a tick can end the run and still leave one life |
| Lives.RedBeforeGreenMatters | src/main.rs:116-117 | at 3 lives with one hit of each colour the result is 3 lives; green before red would give 2 |
| Game.UpdateState | src/main.rs:112-123 | in either version, each pool becomes the kept balls of its own `update_balls` call (red before green, same step and paddle position); the paddle does not move; lives stay a `u8`; run ends iff the red hits reach the lives; with no more red hits than lives, lives become min(3, L − r + g) |
| Game.UpdateLeavesNothingCatchable | src/main.rs:102-117 | in either version, after a tick no ball in either pool is below the bottom edge or passing that version's catch test |
| Game.UpdateBallsKeepsOnScreen | src/main.rs:89-109 | a pool with all balls on screen stays on screen, given spawn columns below 800 and a step that cannot overflow |
| Game.UpdateKeepsInvariant | src/main.rs:112-123 | a tick of a running game keeps its version's invariant: the paddle stays reachable, lives stay a `u8` and are 1..3 while running, and all balls stay on screen; the corrected version also keeps lives ≤ 3 |
| Game.Step | src/main.rs:171-177 | in either version, an update performs exactly the tick of UpdateState, a key press changes only the paddle position (by MoveLeft or MoveRight), any other event changes nothing, and the invariant is kept |
| Game.Run | src/main.rs:170-178 | in either version, the loop keeps the invariant and does nothing once run is false |
| Game.InitialInvariant | src/main.rs:153-166 | the initial state satisfies both versions' invariant |
| Game.RunFrozenAfterGameOver | src/main.rs:170 | in either version, once the loop has stopped, later events change nothing |
| Game.RunEndsOnlyOnRedHits | src/main.rs:114-120 | in either version, a tick ends a running game iff its red hits number at least the lives left |
| Game.UpdateVersionsAgree | src/main.rs:102-120 | with 35 ≤ position < 2^32 − 35 and no more red hits than lives, the as-written and corrected ticks are identical |
| Game.UpdateDivergesAtLeftEdge | src/main.rs:103 | at the reachable position 30, the as-written tick lets a red ball under the paddle through and keeps 3 lives, and the corrected tick catches it, leaving 2 |
| Game.DoubleHitCaughtTogether | src/main.rs:102-109 | in either version, two red balls already in the catch zone under the paddle are both hit by one `update_balls` call with step 2; this happens when the paddle has just moved under balls that were outside its window |
| Game.TwoRedHitsInOneTick | src/main.rs:113-120 | a state both invariants admit (1 life, two red balls under the paddle, step 2): the as-written tick stops the game with 255 lives, the corrected tick with 0 lives |

## Left out

- Rendering (`render`, `render_balls`, src/main.rs:34-84): drawing calls into graphics libraries that are not part of this model, using float transforms.
- Window creation and event polling (src/main.rs:139-151, 168): I/O. The loop is modelled as a given sequence of events, and only the `run` guard is kept.
- The random generator (src/main.rs:89-91): the spawn decision and column are inputs of each tick. `TickOk` requires the column to be below 800, which is what `(x * 800.0) as u32` yields for x in [0, 1).
- `fall_speed` and its growth `+= dt * 0.01` (src/main.rs:99, 122): floating point. The step is a free `nat` input per tick. The model does not constrain steps to start at 2 or to never decrease, so it admits more tick sequences than the program produces.
- `rotation` (src/main.rs:22, 56): a float that is never updated.
- Pool.Advanced: requires (`CanAdvance`) that `y + step` fits in `u32`. The program does not guard this addition, which would wrap or panic only at an absurd fall speed.
- Game.UpdateState: the no-ball-left-catchable property is stated in Game.UpdateLeavesNothingCatchable rather than in its own contract, to keep its proof small.
- Pool.Retain: which balls are kept and which are hits is stated in Pool.RetainCounts rather than in its own contract, to keep its proof small.
- The debug-build overflow panics at src/main.rs:103 and src/main.rs:116 are not modelled. `AsWritten` follows an optimised build, where `position - 35` and `lives -= 1` wrap instead of stopping the program.
- The tuple `(app.run, events.next(...))` polls one more event after `run` becomes false. That event is discarded, so the model does not represent it.

## Findings

Both halves of each row are modelled. The as-written column names a tick of the `AsWritten` game that shows the bug. The corrected column names the property proved of the fix, which every operation applies in its `Corrected` version.

| source | as written | input that shows it | evidently intended | confidence | as-written member | corrected member |
|---|---|---|---|---|---|---|
| src/main.rs:103 | `ball.x > self.position - 35` on `u32`, while the guard `position > 35` (src/main.rs:126) lets the paddle reach 30 | 37 left presses from 400 reach position 30; red ball at (10, 570): `30 - 35` wraps to 4294967291, so the ball is not caught (a debug build panics instead) | a ball strictly within 35 pixels of the paddle in the catch zone is caught at every paddle position | high; not executed | Game.UpdateDivergesAtLeftEdge | Pool.CaughtWithinHalfWidth |
| src/main.rs:116 | `lives -= 1` on `u8` once per red hit, with no guard at zero | 1 life left and two red balls under the paddle in one tick: lives wrap to 255 (a debug build panics instead) | lives stop at 0, and the run ends when they reach it | high; not executed | Game.TwoRedHitsInOneTick | Lives.RedPass |

=== FILE: game.dfy ===
/**
 * The game state and the event loop of src/main.rs: `update` runs the red
 * pool, then the green pool, then settles lives and `run` (src/main.rs:112-123);
 * key presses move the paddle (src/main.rs:125-135); the loop in `main` stops
 * as soon as `run` is false (src/main.rs:170).  Drawing, the window and the
 * random generator are outside the model; the spawn decisions and the fall
 * step arrive as inputs of each tick.  Every operation takes the Version it
 * runs: the code as written, or the code with its two arithmetic bugs fixed.
 */
module Game {
  import opened Wrappers
  import opened Screen
  import opened MachineInt
  import opened Versions
  import Paddle
  import opened Pool
  import opened Lives

  /** The integer part of `App`: the float fields and the graphics handle are left out. */
  datatype App = App(run: bool, position: nat, lives: nat)

  /** The two ball pools. */
  datatype Entities = Entities(red: seq<Ball>, green: seq<Ball>)

  datatype State = State(app: App, entities: Entities)

  /**
   * The inputs one `update` takes from outside the integer model: whether and
   * where a red and a green ball spawn, and the fall step `(10.0 * fall_speed) as u32`.
   */
  datatype Tick = Tick(redSpawn: Option<nat>, greenSpawn: Option<nat>, step: nat)

  /** The events the loop dispatches; render and unknown events change nothing. */
  datatype Event = Update(tick: Tick) | Press(key: Paddle.Key) | Other

  /** The state `main` builds before the loop. */
  const INITIAL: State := State(App(true, Paddle.START, MAX_LIVES), Entities([], []))

  /**
   * A tick the program can produce: spawn columns come from `(x * 800.0) as u32`
   * with x in [0, 1), and the step leaves room for a ball just above the
   * bottom edge to move without overflowing `u32`.
   */
  predicate TickOk(t: Tick)
  {
    && (t.redSpawn.Some? ==> t.redSpawn.value < WIDTH)
    && (t.greenSpawn.Some? ==> t.greenSpawn.value < WIDTH)
    && t.step + HEIGHT <= U32_MODULUS
  }

  predicate EventOk(e: Event)
  {
    e.Update? ==> TickOk(e.tick)
  }

  /** Every ball of a pool is on screen. */
  predicate OnScreen(pool: seq<Ball>)
  {
    forall i :: 0 <= i < |pool| ==> pool[i].x < WIDTH && pool[i].y < HEIGHT
  }

  /**
   * What holds of every state the loop of `version` reaches.  While the game
   * runs it has 1..MAX_LIVES lives in both versions; once it has stopped, the
   * corrected version still has at most MAX_LIVES, while the as-written one
   * can have stopped with a wrapped count such as 255.
   */
  predicate Invariant(version: Version, s: State)
  {
    && Paddle.Reachable(s.app.position)
    && IsU8(s.app.lives)
    && (s.app.run ==> 1 <= s.app.lives <= MAX_LIVES)
    && (version.Corrected? ==> s.app.lives <= MAX_LIVES)
    && OnScreen(s.entities.red)
    && OnScreen(s.entities.green)
  }

  lemma OnScreenCanAdvance(pool: seq<Ball>, step: nat)
    requires OnScreen(pool) && step + HEIGHT <= U32_MODULUS
    ensures CanAdvance(pool, step)
  {
  }

  /**
   * `update`: both pools take the same step under the same paddle position,
   * red before green, and each becomes the balls its `update_balls` call
   * kept; the paddle does not move; `run` starts as true and
   * ends exactly when the red hits reach the lives; with no more red hits
   * than lives, lives become min(3, lives - red + green).
   */
  function UpdateState(version: Version, s: State, t: Tick): (r: State)
    requires CanAdvance(s.entities.red, t.step) && CanAdvance(s.entities.green, t.step)
    requires IsU8(s.app.lives)
    ensures r.app.position == s.app.position
    ensures IsU8(r.app.lives)
    ensures var red := UpdateBalls(version, s.entities.red, t.redSpawn, t.step, s.app.position);
            var green := UpdateBalls(version, s.entities.green, t.greenSpawn, t.step, s.app.position);
            && r.entities == Entities(red.kept, green.kept)
            && (0 < s.app.lives ==> (r.app.run <==> |red.hits| < s.app.lives))
            && (|red.hits| <= s.app.lives <= MAX_LIVES ==>
                  r.app.lives == Min(MAX_LIVES, s.app.lives - |red.hits| + |green.hits|))
  {
    var red := UpdateBalls(version, s.entities.red, t.redSpawn, t.step, s.app.position);
    var green := UpdateBalls(version, s.entities.green, t.greenSpawn, t.step, s.app.position);
    var tally := ApplyHits(version, s.app.lives, |red.hits|, |green.hits|);
    State(App(tally.run, s.app.position, tally.lives), Entities(red.kept, green.kept))
  }

  /**
   * After a tick no ball is left below the bottom edge or passing the
   * version's catch test, in either pool.
   */
  lemma UpdateLeavesNothingCatchable(version: Version, s: State, t: Tick)
    requires CanAdvance(s.entities.red, t.step) && CanAdvance(s.entities.green, t.step)
    requires IsU8(s.app.lives)
    ensures forall b :: b in UpdateState(version, s, t).entities.red ==>
              b.y < HEIGHT && !Hit(version, b, s.app.position)
    ensures forall b :: b in UpdateState(version, s, t).entities.green ==>
              b.y < HEIGHT && !Hit(version, b, s.app.position)
  {
    var red := UpdateBalls(version, s.entities.red, t.redSpawn, t.step, s.app.position);
    var green := UpdateBalls(version, s.entities.green, t.greenSpawn, t.step, s.app.position);
    assert UpdateState(version, s, t).entities == Entities(red.kept, green.kept);
  }

  /** A pool that was on screen is still on screen after `update_balls`. */
  lemma UpdateBallsKeepsOnScreen(version: Version, pool: seq<Ball>, spawn: Option<nat>, step: nat, position: nat)
    requires OnScreen(pool) && step + HEIGHT <= U32_MODULUS
    requires spawn.Some? ==> spawn.value < WIDTH
    ensures CanAdvance(pool, step)
    ensures OnScreen(UpdateBalls(version, pool, spawn, step, position).kept)
  {
    OnScreenCanAdvance(pool, step);
    var kept := UpdateBalls(version, pool, spawn, step, position).kept;
    assert forall b :: b in pool ==> b.x < WIDTH;
    forall i | 0 <= i < |kept|
      ensures kept[i].x < WIDTH && kept[i].y < HEIGHT
    {
      assert kept[i] in kept;
    }
  }

  /** A tick of a running game keeps the invariant of its version. */
  lemma UpdateKeepsInvariant(version: Version, s: State, t: Tick)
    requires Invariant(version, s) && s.app.run && TickOk(t)
    ensures CanAdvance(s.entities.red, t.step) && CanAdvance(s.entities.green, t.step)
    ensures Invariant(version, UpdateState(version, s, t))
  {
    UpdateBallsKeepsOnScreen(version, s.entities.red, t.redSpawn, t.step, s.app.position);
    UpdateBallsKeepsOnScreen(version, s.entities.green, t.greenSpawn, t.step, s.app.position);
    ApplyHitsKeepsLivesInRange(version, s.app.lives,
      |UpdateBalls(version, s.entities.red, t.redSpawn, t.step, s.app.position).hits|,
      |UpdateBalls(version, s.entities.green, t.greenSpawn, t.step, s.app.position).hits|);
  }

  /**
   * One dispatched event while the game runs (src/main.rs:171-177): an update
   * performs the tick, a key press moves the paddle and nothing else, and
   * any other event changes nothing.  The invariant is kept.
   */
  function Step(version: Version, s: State, e: Event): (r: State)
    requires Invariant(version, s) && s.app.run && EventOk(e)
    ensures Invariant(version, r)
    ensures (e.Update? && CanAdvance(s.entities.red, e.tick.step) && CanAdvance(s.entities.green, e.tick.step))
              ==> (r == UpdateState(version, s, e.tick))
    ensures e.Press? ==> r == State(s.app.(position := Paddle.Press(s.app.position, e.key)), s.entities)
    ensures e.Other? ==> r == s
  {
    match e
    case Update(t) =>
      UpdateKeepsInvariant(version, s, t);
      UpdateState(version, s, t)
    case Press(k) =>
      Paddle.PressKeepsReachable(s.app.position, k);
      State(s.app.(position := Paddle.Press(s.app.position, k)), s.entities)
    case Other => s
  }

  /**
   * The `while let (true, Some(e))` loop: events are dispatched in order while
   * `run` holds; once it is false nothing more happens.
   */
  function Run(version: Version, s: State, events: seq<Event>): (r: State)
    requires Invariant(version, s)
    requires forall i :: 0 <= i < |events| ==> EventOk(events[i])
    ensures Invariant(version, r)
    ensures !s.app.run ==> r == s
    decreases |events|
  {
    if !s.app.run || events == [] then s
    else Run(version, Step(version, s, events[0]), events[1..])
  }

  lemma InitialInvariant(version: Version)
    ensures Invariant(version, INITIAL)
  {
  }

  /**
   * Once the loop has stopped, later events change nothing: the state after
   * `first` and then `later` is the state after `first` alone.
   */
  lemma {:induction false} RunFrozenAfterGameOver(version: Version, s: State, first: seq<Event>, later: seq<Event>)
    requires Invariant(version, s)
    requires forall i :: 0 <= i < |first| ==> EventOk(first[i])
    requires forall i :: 0 <= i < |later| ==> EventOk(later[i])
    ensures !Run(version, s, first).app.run ==> Run(version, s, first + later) == Run(version, s, first)
    decreases |first|
  {
    if !s.app.run {
    } else if first == [] {
    } else {
      var next := Step(version, s, first[0]);
      assert Run(version, s, first) == Run(version, next, first[1..]);
      assert first + later == [first[0]] + (first[1..] + later);
      assert (first + later)[0] == first[0];
      assert (first + later)[1..] == first[1..] + later;
      assert forall i :: 0 <= i < |first[1..]| ==> EventOk(first[1..][i]);
      assert forall i :: 0 <= i < |first[1..] + later| ==> EventOk((first[1..] + later)[i]);
      assert Run(version, s, first + later) == Run(version, next, first[1..] + later);
      RunFrozenAfterGameOver(version, next, first[1..], later);
    }
  }

  /**
   * The loop only ends a running game through a red hit: a tick ends it
   * exactly when its red hits number at least the lives left.
   */
  lemma RunEndsOnlyOnRedHits(version: Version, s: State, t: Tick)
    requires Invariant(version, s) && s.app.run && TickOk(t)
    ensures !Step(version, s, Update(t)).app.run <==>
              |UpdateBalls(version, s.entities.red, t.redSpawn, t.step, s.app.position).hits| >= s.app.lives
  {
  }

  /**
   * The as-written and corrected updates are the same tick whenever
   * 35 <= position < 2^32 - 35 (so neither `position - 35` nor `position + 35`
   * wraps) and the red hits do not outnumber the lives: the two bugs are the
   * only differences.
   */
  lemma UpdateVersionsAgree(s: State, t: Tick)
    requires CanAdvance(s.entities.red, t.step) && CanAdvance(s.entities.green, t.step)
    requires IsU8(s.app.lives)
    requires HALF_WIDTH <= s.app.position < U32_MODULUS - HALF_WIDTH
    requires |UpdateBalls(Corrected, s.entities.red, t.redSpawn, t.step, s.app.position).hits| <= s.app.lives
    ensures UpdateState(AsWritten, s, t) == UpdateState(Corrected, s, t)
  {
    RetainVersionsAgree(Advanced(s.entities.red, t.redSpawn, t.step), s.app.position);
    RetainVersionsAgree(Advanced(s.entities.green, t.greenSpawn, t.step), s.app.position);
    var red := UpdateBalls(Corrected, s.entities.red, t.redSpawn, t.step, s.app.position);
    var green := UpdateBalls(Corrected, s.entities.green, t.greenSpawn, t.step, s.app.position);
    ApplyHitsVersionsAgree(s.app.lives, |red.hits|, |green.hits|);
  }

  /**
   * At the reachable left edge 30 the as-written tick lets a red ball under
   * the paddle through and keeps 3 lives; the corrected tick catches it.
   */
  lemma UpdateDivergesAtLeftEdge()
    ensures var s := State(App(true, 30, MAX_LIVES), Entities([Ball(10, 568)], []));
            var t := Tick(None, None, 2);
            && Invariant(AsWritten, s) && Invariant(Corrected, s) && TickOk(t)
            && Step(AsWritten, s, Update(t)) == State(App(true, 30, MAX_LIVES), Entities([Ball(10, 570)], []))
            && Step(Corrected, s, Update(t)) == State(App(true, 30, MAX_LIVES - 1), Entities([], []))
  {
    UpdateBallsDivergeAtLeftEdge();
    var empty := UpdateBalls(AsWritten, [], None, 2, 30);
    assert |empty.kept| + |empty.hits| <= 0;
    var empty' := UpdateBalls(Corrected, [], None, 2, 30);
    assert |empty'.kept| + |empty'.hits| <= 0;
  }

  /**
   * Two red balls already below the catch line and under the paddle at START.
   * Such a pool is reached only when the paddle has just moved under balls
   * that were at least HALF_WIDTH away from it on the previous tick.
   */
  const DOUBLE_HIT: seq<Ball> := [Ball(Paddle.START, 568), Ball(Paddle.START, 578)]

  /** With the program's first fall step of 2, one `update_balls` call hits both balls. */
  lemma DoubleHitCaughtTogether(version: Version)
    ensures |UpdateBalls(version, DOUBLE_HIT, None, 2, Paddle.START).hits| == 2
  {
    var advanced := Advanced(DOUBLE_HIT, None, 2);
    assert advanced == [Ball(Paddle.START, 570), Ball(Paddle.START, 580)];
    var rest := Retain(version, advanced[1..], Paddle.START);
    assert advanced[1..][1..] == [];
    assert rest.hits == [advanced[1]];
  }

  /**
   * A state the invariant admits in which the as-written `lives -= 1` wraps:
   * one life left and two red balls under the paddle in the same tick.  The
   * as-written tick stops the game with 255 lives, the corrected one with 0.
   */
  lemma TwoRedHitsInOneTick()
    ensures var s := State(App(true, Paddle.START, 1), Entities(DOUBLE_HIT, []));
            var t := Tick(None, None, 2);
            && Invariant(AsWritten, s) && Invariant(Corrected, s) && TickOk(t)
            && Step(AsWritten, s, Update(t)).app == App(false, Paddle.START, U8_MODULUS - 1)
            && Step(Corrected, s, Update(t)).app == App(false, Paddle.START, 0)
  {
    var s := State(App(true, Paddle.START, 1), Entities(DOUBLE_HIT, []));
    assert Invariant(AsWritten, s) && Invariant(Corrected, s);
    DoubleHitCaughtTogether(AsWritten);
    DoubleHitCaughtTogether(Corrected);
    TwoRedHitsOnLastLife();
    var green := UpdateBalls(AsWritten, [], None, 2, Paddle.START);
    assert |green.kept| + |green.hits| <= 0;
    var green' := UpdateBalls(Corrected, [], None, 2, Paddle.START);
    assert |green'.kept| + |green'.hits| <= 0;
  }
}

=== FILE: lives.dfy ===
/**
 * The two collision callbacks of `update` (src/main.rs:112-120).  A red hit
 * costs a life and, when the decrement reaches zero, ends the run; a green
 * hit gives a life back while fewer than three remain.  All red callbacks of
 * a tick fire before any green one, and `run` starts each tick as true.
 */
module Lives {
  import opened MachineInt
  import opened Versions

  /** Lives the player starts with, and the most the green callback restores. */
  const MAX_LIVES: nat := 3

  function Min(a: int, b: int): int { if a <= b then a else b }

  function Max(a: int, b: int): int { if a >= b then a else b }

  /** The closure-captured `lives` and `run` after some callbacks. */
  datatype Tally = Tally(lives: nat, run: bool)

  /**
   * The red callback as written, fired `hits` times: `lives -= 1` on a `u8`,
   * wrapping, then `run = false` if the result is zero.  The lives end up
   * `hits` lower modulo 256, and the run ends once `lives` decrements have
   * happened (256 of them when starting from zero).
   */
  function RedPassAsWritten(lives: nat, hits: nat, run: bool): (r: Tally)
    requires IsU8(lives)
    ensures IsU8(r.lives)
    ensures r.lives == (lives - hits) % U8_MODULUS
    ensures r.run <==> run && hits < (if lives == 0 then U8_MODULUS else lives)
    decreases hits
  {
    if hits == 0 then Tally(lives, run)
    else
      var l := WrappingDec8(lives);
      RedPassAsWritten(l, hits - 1, if l == 0 then false else run)
  }

  /**
   * The red callback as intended: a life is taken only while one is left, so
   * the count saturates at zero, and the run ends exactly when some decrement
   * reaches zero.
   */
  function RedPass(lives: nat, hits: nat, run: bool): (r: Tally)
    ensures r.lives == Max(0, lives - hits)
    ensures r.run <==> run && !(0 < lives <= hits)
    decreases hits
  {
    if hits == 0 then Tally(lives, run)
    else if lives == 0 then RedPass(lives, hits - 1, run)
    else RedPass(lives - 1, hits - 1, if lives - 1 == 0 then false else run)
  }

  /** With no more red hits than lives, the guard never matters. */
  lemma RedPassAgreesWhenEnoughLives(lives: nat, hits: nat, run: bool)
    requires IsU8(lives) && hits <= lives
    ensures RedPassAsWritten(lives, hits, run) == RedPass(lives, hits, run)
  {
  }

  /**
   * One to three red hits more than lives left in one tick: the as-written
   * decrement wraps to 256 + lives - hits, more than MAX_LIVES lives, while the
   * guarded one stops at zero.
   */
  lemma RedPassAsWrittenWraps(lives: nat, hits: nat, run: bool)
    requires IsU8(lives) && lives < hits <= lives + MAX_LIVES
    ensures RedPassAsWritten(lives, hits, run).lives == U8_MODULUS + lives - hits
    ensures RedPassAsWritten(lives, hits, run).lives > MAX_LIVES
    ensures RedPass(lives, hits, run).lives == 0
  {
  }

  /** One life left and two red hits in the same tick: 255 lives. */
  lemma TwoRedHitsOnLastLife()
    ensures RedPassAsWritten(1, 2, true) == Tally(U8_MODULUS - 1, false)
    ensures RedPass(1, 2, true) == Tally(0, false)
  {
  }

  /**
   * The green callback fired `hits` times: a life is added only while fewer
   * than MAX_LIVES remain, so from at most MAX_LIVES it climbs to at most
   * MAX_LIVES, and a count already above the cap is left alone.
   */
  function GreenPass(lives: nat, hits: nat): (r: nat)
    ensures lives <= MAX_LIVES ==> r == Min(MAX_LIVES, lives + hits)
    ensures lives > MAX_LIVES ==> r == lives
    decreases hits
  {
    if hits == 0 then lives
    else GreenPass(if lives < MAX_LIVES then lives + 1 else lives, hits - 1)
  }

  /**
   * The bookkeeping of one `update` call: `run` starts as true, the red hits
   * are applied with the version's decrement, then the green hits.  With no
   * more red hits than lives, both versions give min(3, lives - red + green).
   * With one to three red hits more than lives, the as-written decrement wraps
   * above MAX_LIVES and green cannot repair it; from at most MAX_LIVES lives
   * the corrected one stops at zero and green then adds back.
   */
  function ApplyHits(version: Version, lives: nat, redHits: nat, greenHits: nat): (r: Tally)
    requires IsU8(lives)
    ensures IsU8(r.lives)
    ensures 0 < lives ==> (r.run <==> redHits < lives)
    ensures redHits <= lives <= MAX_LIVES ==> r.lives == Min(MAX_LIVES, lives - redHits + greenHits)
    ensures version.AsWritten? && lives < redHits <= lives + MAX_LIVES ==>
              r.lives == U8_MODULUS + lives - redHits
    ensures version.Corrected? && lives <= MAX_LIVES ==>
              r.lives == Min(MAX_LIVES, Max(0, lives - redHits) + greenHits)
  {
    var afterRed := match version
      case AsWritten => RedPassAsWritten(lives, redHits, true)
      case Corrected => RedPass(lives, redHits, true);
    Tally(GreenPass(afterRed.lives, greenHits), afterRed.run)
  }

  /**
   * From 1..MAX_LIVES lives, a tick ends the run exactly when the red hits
   * reach the lives, and a tick that keeps the run leaves 1..MAX_LIVES lives
   * in both versions; only the corrected one also keeps at most MAX_LIVES
   * after the run ends.
   */
  lemma ApplyHitsKeepsLivesInRange(version: Version, lives: nat, redHits: nat, greenHits: nat)
    requires 1 <= lives <= MAX_LIVES
    ensures !ApplyHits(version, lives, redHits, greenHits).run <==> redHits >= lives
    ensures ApplyHits(version, lives, redHits, greenHits).run ==>
              1 <= ApplyHits(version, lives, redHits, greenHits).lives <= MAX_LIVES
    ensures version.Corrected? ==> ApplyHits(version, lives, redHits, greenHits).lives <= MAX_LIVES
  {
  }

  /** The two versions agree on a tick with no more red hits than lives. */
  lemma ApplyHitsVersionsAgree(lives: nat, redHits: nat, greenHits: nat)
    requires IsU8(lives) && redHits <= lives
    ensures ApplyHits(AsWritten, lives, redHits, greenHits) == ApplyHits(Corrected, lives, redHits, greenHits)
  {
    RedPassAgreesWhenEnoughLives(lives, redHits, true);
  }

  /** Green comes after red, so a tick can end the run and still leave a life. */
  lemma GreenAfterRedRevives()
    ensures ApplyHits(AsWritten, 1, 1, 1) == Tally(1, false)
    ensures ApplyHits(Corrected, 1, 1, 1) == Tally(1, false)
  {
  }

  /** The order matters: green first would have been capped and then lost. */
  lemma RedBeforeGreenMatters()
    ensures ApplyHits(AsWritten, MAX_LIVES, 1, 1).lives == MAX_LIVES
    ensures RedPass(GreenPass(MAX_LIVES, 1), 1, true).lives == MAX_LIVES - 1
  {
  }
}

=== FILE: machine_int.dfy ===
/**
 * The fixed-width unsigned integers of the original program (`u8` for lives,
 * `u32` for coordinates and the paddle position), written out over Dafny's
 * unbounded integers.  The wrapping operations follow an optimised build; a
 * debug build stops with a panic at exactly the inputs where they wrap.
 */
module MachineInt {

  const U8_MODULUS: nat := 0x100
  const U32_MODULUS: nat := 0x1_0000_0000

  predicate IsU8(n: int) { 0 <= n < U8_MODULUS }

  predicate IsU32(n: int) { 0 <= n < U32_MODULUS }

  /** `a - b` on `u32`: exact when it does not underflow, otherwise 2^32 too large. */
  function WrappingSub32(a: nat, b: nat): (r: nat)
    requires IsU32(a) && IsU32(b)
    ensures IsU32(r)
    ensures a >= b ==> r == a - b
    ensures a < b ==> r == U32_MODULUS + a - b
  {
    (a - b) % U32_MODULUS
  }

  /** `a + b` on `u32`: exact when it does not overflow, otherwise 2^32 too small. */
  function WrappingAdd32(a: nat, b: nat): (r: nat)
    requires IsU32(a) && IsU32(b)
    ensures IsU32(r)
    ensures a + b < U32_MODULUS ==> r == a + b
    ensures a + b >= U32_MODULUS ==> r + U32_MODULUS == a + b
  {
    (a + b) % U32_MODULUS
  }

  /** `n -= 1` on `u8`: 0 wraps round to 255. */
  function WrappingDec8(n: nat): (r: nat)
    requires IsU8(n)
    ensures IsU8(r)
    ensures n > 0 ==> r + 1 == n
    ensures n == 0 ==> r == U8_MODULUS - 1
  {
    (n + U8_MODULUS - 1) % U8_MODULUS
  }
}

=== FILE: paddle.dfy ===
/**
 * The paddle: a position on the bottom edge that the arrow keys move by ten
 * pixels at a time (src/main.rs:125-135), starting from the middle of the
 * window (src/main.rs:158).
 *
 * The guards are `position > 35` and `position < 765`, checked BEFORE the
 * step, so the paddle can go one step past each guard: from 400 the reachable
 * positions are exactly the multiples of ten from 30 to 770.
 */
module Paddle {
  import opened Screen
  import opened MachineInt

  /** Pixels moved by one key press. */
  const STEP: nat := 10

  /** The starting position, `width / 2`. */
  const START: nat := WIDTH / 2

  /** The leftmost position: one step past the guard `position > 35`, taken from 40. */
  const LEFT_EDGE: nat := 30

  /** The rightmost position: one step past the guard `position < 765`, taken from 760. */
  const RIGHT_EDGE: nat := 770

  /** A key press that moves the paddle. */
  datatype Key = Left | Right

  /** `move_left`: one step left unless the paddle is at or left of the guard. */
  function MoveLeft(position: nat): (r: nat)
    ensures r == position || r + STEP == position
    ensures r < position <==> position > HALF_WIDTH
    ensures IsU32(position) ==> IsU32(r)
  {
    if position > HALF_WIDTH then position - STEP else position
  }

  /** `move_right`: one step right unless the paddle is at or right of the guard. */
  function MoveRight(position: nat): (r: nat)
    ensures r == position || r == position + STEP
    ensures r > position <==> position < WIDTH - HALF_WIDTH
    ensures IsU32(position) ==> IsU32(r)
  {
    if position < WIDTH - HALF_WIDTH then position + STEP else position
  }

  function Press(position: nat, key: Key): (r: nat)
  {
    match key
    case Left => MoveLeft(position)
    case Right => MoveRight(position)
  }

  /** The position after a run of key presses, oldest first. */
  function Presses(position: nat, keys: seq<Key>): (r: nat)
    decreases |keys|
  {
    if keys == [] then position else Presses(Press(position, keys[0]), keys[1..])
  }

  /** The positions reachable from START: multiples of ten from LEFT_EDGE to RIGHT_EDGE. */
  predicate Reachable(position: nat)
  {
    position % STEP == 0 && LEFT_EDGE <= position <= RIGHT_EDGE
  }

  /** Moving right undoes a move left that happened. */
  lemma RightUndoesLeft(position: nat)
    requires HALF_WIDTH < position < WIDTH - HALF_WIDTH + STEP
    ensures MoveRight(MoveLeft(position)) == position
  {
  }

  /** Moving left undoes a move right that happened. */
  lemma LeftUndoesRight(position: nat)
    requires HALF_WIDTH - STEP < position < WIDTH - HALF_WIDTH
    ensures MoveLeft(MoveRight(position)) == position
  {
  }

  /** Both moves keep the paddle among the reachable positions. */
  lemma PressKeepsReachable(position: nat, key: Key)
    requires Reachable(position)
    ensures Reachable(Press(position, key))
  {
  }

  /** Any run of presses from a reachable position stays reachable. */
  lemma {:induction false} PressesKeepReachable(position: nat, keys: seq<Key>)
    requires Reachable(position)
    ensures Reachable(Presses(position, keys))
    decreases |keys|
  {
    if keys != [] {
      PressKeepsReachable(position, keys[0]);
      PressesKeepReachable(Press(position, keys[0]), keys[1..]);
    }
  }

  /** `n` presses of the same key. */
  function Repeat(key: Key, n: nat): (keys: seq<Key>)
    ensures |keys| == n
    ensures forall i :: 0 <= i < n ==> keys[i] == key
  {
    seq(n, _ => key)
  }

  /** Pressing Left n times walks n full steps while the guard keeps letting it. */
  lemma {:induction false} WalkLeft(position: nat, n: nat)
    requires position >= STEP * n + HALF_WIDTH - STEP + 1
    ensures Presses(position, Repeat(Left, n)) == position - STEP * n
    decreases n
  {
    if n > 0 {
      assert Repeat(Left, n)[1..] == Repeat(Left, n - 1);
      WalkLeft(position - STEP, n - 1);
    }
  }

  /** Pressing Right n times walks n full steps while the guard keeps letting it. */
  lemma {:induction false} WalkRight(position: nat, n: nat)
    requires position + STEP * n <= WIDTH - HALF_WIDTH + STEP - 1
    ensures Presses(position, Repeat(Right, n)) == position + STEP * n
    decreases n
  {
    if n > 0 {
      assert Repeat(Right, n)[1..] == Repeat(Right, n - 1);
      WalkRight(position + STEP, n - 1);
    }
  }

  /** From START the paddle reaches exactly the positions Reachable names. */
  lemma ReachableFromStart(position: nat)
    ensures Reachable(position) <==> exists keys :: Presses(START, keys) == position
  {
    if Reachable(position) {
      if position <= START {
        var n := (START - position) / STEP;
        WalkLeft(START, n);
        assert Presses(START, Repeat(Left, n)) == position;
      } else {
        var n := (position - START) / STEP;
        WalkRight(START, n);
        assert Presses(START, Repeat(Right, n)) == position;
      }
    }
    forall keys | Presses(START, keys) == position
      ensures Reachable(position)
    {
      PressesKeepReachable(START, keys);
    }
  }

  /** 37 left presses from START reach LEFT_EDGE, which lies left of HALF_WIDTH. */
  lemma LeftEdgeBelowHalfWidth()
    ensures Presses(START, Repeat(Left, 37)) == LEFT_EDGE < HALF_WIDTH
  {
    WalkLeft(START, 37);
  }
}

=== FILE: pool.dfy ===
/**
 * One pool of falling balls and the per-tick `update_balls` step
 * (src/main.rs:86-110): maybe spawn one ball at the top, move every ball down
 * by the same step, then keep, in order, the balls that are neither caught by
 * the paddle nor past the bottom edge.  Every caught ball fires the collision
 * callback once; here the callback is modelled by returning the caught balls
 * in the order the callback saw them.
 *
 * The random spawn decision and spawn column become an `Option<nat>` input,
 * and the fall step `(10.0 * fall_speed) as u32` becomes a `nat` input.  The
 * catch test is the one of the given Version: as written, or corrected.
 */
module Pool {
  import opened Wrappers
  import opened Screen
  import opened MachineInt
  import opened Versions

  datatype Ball = Ball(x: nat, y: nat)

  /** What one `update_balls` call leaves: the kept balls and the caught ones. */
  datatype Outcome = Outcome(kept: seq<Ball>, hits: seq<Ball>)

  /**
   * The catch test of src/main.rs:103 as written: `position - 35` and
   * `position + 35` on `u32`, wrapping.  It agrees with Caught whenever the
   * paddle is at least 35 pixels from the left edge and `position + 35` does
   * not wrap, that is, for 35 <= position < 2^32 - 35.
   */
  predicate CaughtAsWritten(b: Ball, position: nat)
    requires IsU32(position)
    ensures HALF_WIDTH <= position < U32_MODULUS - HALF_WIDTH ==>
              (CaughtAsWritten(b, position) <==> Caught(b, position))
  {
    b.y > CATCH_LINE
    && b.x > WrappingSub32(position, HALF_WIDTH)
    && b.x < WrappingAdd32(position, HALF_WIDTH)
  }

  /**
   * The catch test as intended: the ball is in the catch zone and strictly
   * within 35 pixels of the paddle horizontally.  It is written without a
   * subtraction, so it means the same at every paddle position.
   */
  predicate Caught(b: Ball, position: nat)
  {
    b.y > CATCH_LINE && position < b.x + HALF_WIDTH && b.x < position + HALF_WIDTH
  }

  /**
   * The catch test of a version.  The paddle position is a `u32` in the
   * program; a position beyond that range is never caught by the as-written test.
   */
  predicate Hit(version: Version, b: Ball, position: nat)
  {
    match version
    case AsWritten => IsU32(position) && CaughtAsWritten(b, position)
    case Corrected => Caught(b, position)
  }

  /** A ball survives the retain when it is not hit and still on screen. */
  predicate Survives(version: Version, b: Ball, position: nat)
  {
    !Hit(version, b, position) && b.y < HEIGHT
  }

  /** Away from the left edge the two catch tests are the same. */
  lemma HitVersionsAgree(b: Ball, position: nat)
    requires HALF_WIDTH <= position < U32_MODULUS - HALF_WIDTH
    ensures Hit(AsWritten, b, position) <==> Hit(Corrected, b, position)
  {
  }

  /** Caught is the window position-35 < x < position+35 below the catch line. */
  lemma CaughtWithinHalfWidth(b: Ball, position: nat)
    ensures Caught(b, position) <==>
              b.y > CATCH_LINE && -(HALF_WIDTH as int) < b.x - position < HALF_WIDTH
  {
  }

  /**
   * Left of x = 35 the as-written test catches nothing: `position - 35` wraps
   * to more than four billion, so no on-screen ball is to the right of it.
   */
  lemma AsWrittenBlindLeftOfHalfWidth(b: Ball, position: nat)
    requires position < HALF_WIDTH && b.x < WIDTH
    ensures !CaughtAsWritten(b, position)
  {
  }

  /**
   * At the reachable left edge 30, a ball right under the paddle is missed by
   * the as-written test although the paddle covers it.
   */
  lemma AsWrittenMissesAtLeftEdge()
    ensures Caught(Ball(10, 570), 30)
    ensures !CaughtAsWritten(Ball(10, 570), 30)
  {
  }

  /** `s` is obtained from `t` by deleting elements, keeping the order. */
  predicate IsSubsequence<T(==)>(s: seq<T>, t: seq<T>)
    decreases |t|
  {
    if t == [] then s == []
    else (s != [] && s[0] == t[0] && IsSubsequence(s[1..], t[1..])) || IsSubsequence(s, t[1..])
  }

  /** Every ball's y can take the step without leaving `u32`. */
  predicate CanAdvance(pool: seq<Ball>, step: nat)
  {
    IsU32(step) && forall i :: 0 <= i < |pool| ==> IsU32(pool[i].y + step)
  }

  /**
   * Spawn then advance (src/main.rs:89-100): at most one new ball is appended
   * at the end, at the spawn column and y = 0, and then every ball, the new
   * one included, moves down by the same step.
   */
  function Advanced(pool: seq<Ball>, spawn: Option<nat>, step: nat): (r: seq<Ball>)
    requires CanAdvance(pool, step)
    ensures |r| == |pool| + (if spawn.Some? then 1 else 0)
    ensures forall i :: 0 <= i < |pool| ==> r[i] == Ball(pool[i].x, pool[i].y + step)
    ensures spawn.Some? ==> r[|pool|] == Ball(spawn.value, step)
    ensures forall i :: 0 <= i < |r| ==> IsU32(r[i].y)
  {
    var spawned := if spawn.Some? then pool + [Ball(spawn.value, 0)] else pool;
    seq(|spawned|, i requires 0 <= i < |spawned| => Ball(spawned[i].x, spawned[i].y + step))
  }

  /**
   * The `retain` of src/main.rs:102-109 with the catch test of `version`: it
   * keeps some balls and reports others as hits, both in their original
   * order, and never invents a ball.  Which balls go where is RetainCounts.
   */
  function Retain(version: Version, pool: seq<Ball>, position: nat): (r: Outcome)
    ensures IsSubsequence(r.kept, pool)
    ensures IsSubsequence(r.hits, pool)
    ensures |r.kept| + |r.hits| <= |pool|
    decreases |pool|
  {
    if pool == [] then Outcome([], [])
    else
      var rest := Retain(version, pool[1..], position);
      if Hit(version, pool[0], position) then
        var hits := [pool[0]] + rest.hits;
        assert hits[1..] == rest.hits;
        Outcome(rest.kept, hits)
      else if pool[0].y < HEIGHT then
        var kept := [pool[0]] + rest.kept;
        assert kept[1..] == rest.kept;
        Outcome(kept, rest.hits)
      else
        rest
  }

  /**
   * The kept balls are exactly the surviving ones and the hits exactly the
   * caught ones, counted with multiplicity: one callback per caught ball, and
   * balls past the bottom edge vanish silently.
   */
  lemma {:induction false} RetainCounts(version: Version, pool: seq<Ball>, position: nat)
    ensures forall b :: multiset(Retain(version, pool, position).kept)[b]
              == if Survives(version, b, position) then multiset(pool)[b] else 0
    ensures forall b :: multiset(Retain(version, pool, position).hits)[b]
              == if Hit(version, b, position) then multiset(pool)[b] else 0
    decreases |pool|
  {
    if pool != [] {
      RetainCounts(version, pool[1..], position);
      var r := Retain(version, pool, position);
      var rest := Retain(version, pool[1..], position);
      assert pool == [pool[0]] + pool[1..];
      assert multiset(pool) == multiset{pool[0]} + multiset(pool[1..]);
      if Hit(version, pool[0], position) {
        assert r.hits == [pool[0]] + rest.hits && r.kept == rest.kept;
        assert multiset(r.hits) == multiset{pool[0]} + multiset(rest.hits);
      } else if pool[0].y < HEIGHT {
        assert r.kept == [pool[0]] + rest.kept && r.hits == rest.hits;
        assert multiset(r.kept) == multiset{pool[0]} + multiset(rest.kept);
      } else {
        assert r == rest;
      }
    }
  }

  /** Away from the left edge the as-written and corrected retains are the same. */
  lemma {:induction false} RetainVersionsAgree(pool: seq<Ball>, position: nat)
    requires HALF_WIDTH <= position < U32_MODULUS - HALF_WIDTH
    ensures Retain(AsWritten, pool, position) == Retain(Corrected, pool, position)
    decreases |pool|
  {
    if pool != [] {
      HitVersionsAgree(pool[0], position);
      RetainVersionsAgree(pool[1..], position);
    }
  }

  /** Membership form of Retain's contract. */
  lemma RetainMembers(version: Version, pool: seq<Ball>, position: nat, b: Ball)
    ensures b in Retain(version, pool, position).kept <==> b in pool && Survives(version, b, position)
    ensures b in Retain(version, pool, position).hits <==> b in pool && Hit(version, b, position)
  {
    var r := Retain(version, pool, position);
    RetainCounts(version, pool, position);
    assert b in r.kept <==> multiset(r.kept)[b] > 0;
    assert b in r.hits <==> multiset(r.hits)[b] > 0;
    assert b in pool <==> multiset(pool)[b] > 0;
  }

  /**
   * `update_balls` (src/main.rs:86-110): spawn, advance, retain.  Afterwards
   * every ball left is above the bottom edge and not hit by the version's
   * catch test; every hit passed that test; no ball is both kept and hit,
   * and none is invented.
   */
  function UpdateBalls(version: Version, pool: seq<Ball>, spawn: Option<nat>, step: nat, position: nat): (r: Outcome)
    requires CanAdvance(pool, step)
    ensures forall b :: b in r.kept ==> b.y < HEIGHT && !Hit(version, b, position)
    ensures forall b :: b in r.hits ==> Hit(version, b, position)
    ensures |r.kept| + |r.hits| <= |pool| + (if spawn.Some? then 1 else 0)
    ensures ((forall b :: b in pool ==> b.x < WIDTH) && (spawn.Some? ==> spawn.value < WIDTH))
              ==> (forall b :: b in r.kept ==> b.x < WIDTH)
  {
    var advanced := Advanced(pool, spawn, step);
    var r := Retain(version, advanced, position);
    forall b | b in r.kept
      ensures b in advanced && b.y < HEIGHT && !Hit(version, b, position)
    {
      RetainMembers(version, advanced, position, b);
    }
    forall b | b in r.hits
      ensures Hit(version, b, position)
    {
      RetainMembers(version, advanced, position, b);
    }
    r
  }

  /**
   * The per-ball rule after advancing: a ball of the advanced pool is hit
   * exactly when the version's catch test holds, otherwise kept exactly when
   * above the bottom edge; the callbacks it causes are its multiplicity when
   * hit and none otherwise.
   */
  lemma UpdateBallsPerBall(version: Version, pool: seq<Ball>, spawn: Option<nat>, step: nat, position: nat, b: Ball)
    requires CanAdvance(pool, step)
    requires b in Advanced(pool, spawn, step)
    ensures b in UpdateBalls(version, pool, spawn, step, position).hits <==> Hit(version, b, position)
    ensures b in UpdateBalls(version, pool, spawn, step, position).kept <==> !Hit(version, b, position) && b.y < HEIGHT
    ensures multiset(UpdateBalls(version, pool, spawn, step, position).hits)[b]
              == if Hit(version, b, position) then multiset(Advanced(pool, spawn, step))[b] else 0
  {
    RetainMembers(version, Advanced(pool, spawn, step), position, b);
    RetainCounts(version, Advanced(pool, spawn, step), position);
  }

  /**
   * As written, a paddle at the reachable position 30 lets a ball under it
   * fall through, which the corrected test catches.
   */
  lemma UpdateBallsDivergeAtLeftEdge()
    ensures UpdateBalls(AsWritten, [Ball(10, 568)], None, 2, 30) == Outcome([Ball(10, 570)], [])
    ensures UpdateBalls(Corrected, [Ball(10, 568)], None, 2, 30) == Outcome([], [Ball(10, 570)])
  {
    var advanced := Advanced([Ball(10, 568)], None, 2);
    assert advanced == [Ball(10, 570)];
    AsWrittenMissesAtLeftEdge();
    assert Retain(AsWritten, advanced[1..], 30) == Outcome([], []);
  }
}

=== FILE: screen.dfy ===
/** Fixed geometry of the game window and the paddle (src/main.rs:103, 132, 141-142). */
module Screen {

  /** Window width in pixels. */
  const WIDTH: nat := 800

  /** Window height in pixels; balls at or below this line are gone. */
  const HEIGHT: nat := 600

  /** Half the width of the paddle's catch window, and the height of the catch zone. */
  const HALF_WIDTH: nat := 35

  /** A ball lower than this line (y > CATCH_LINE) is in the paddle's catch zone. */
  const CATCH_LINE: nat := HEIGHT - HALF_WIDTH
}

=== FILE: versions.dfy ===
/**
 * The two readings of the program the model carries side by side: the code
 * as written (wrapping `u32` catch test, wrapping `u8` decrement) and the
 * corrected code (a catch test without the subtraction, a decrement that
 * stops at zero).  Every operation that uses either piece takes a Version.
 */
module Versions {

  datatype Version = AsWritten | Corrected
}

=== FILE: wrappers.dfy ===
/** The optional value used for a spawn decision that may or may not happen. */
module Wrappers {

  datatype Option<+T> = None | Some(value: T)
}
